=== FILE: README.md ===
# Document question answering: chunking, upload and ask

A Dafny model of the core of a small retrieval-augmented question answering
service. A user uploads a `.txt` or `.pdf` document. The service extracts its
text, hashes it, skips the document if a stored record already carries that
hash, and otherwise cuts the text into sentence-aligned chunks and stores one
record per chunk. A question is answered by fetching the three nearest
records, joining their texts with newlines into a context, and passing the
question and context to a chat model.

Modules, one per concern of `main.py`:

- `Strings`: the Python string operations the core relies on. These are
  `str.isspace`/`str.strip` (with the full Unicode whitespace set),
  `str.split` on one character, `str.join`, `str.endswith` and
  concatenation.
- `Decimal`: rendering a count in decimal, as an f-string does.
- `Outcome`: `Option`, `Result` and the HTTP error value.
- `Chunker`: `chunk_text`. The loop is a left fold (`Pack`/`Step`) over the
  `.`-fragments that keeps the raw buffers; the chunks are the stripped
  buffers. `ChunkTextLoop` is the loop as written and is proved to compute
  the fold.
- `Extractor`: `extract_text`, with suffix dispatch and page concatenation.
- `UploadEndpoint`: `upload_file`, with the hash check, chunking, one record
  per chunk and the reply message.
- `AskEndpoint`: `ask`, with the empty-result answer and the newline-joined
  context.

Several things are parameters rather than code:

- `compute_hash` (MD5 of the text) is an arbitrary function `hash`.
- UTF-8 decoding and `pdfplumber`'s per-page text are the functions in
  `Readers`.
- The nearest-neighbour search and the chat model are functions passed to
  `Ask`.
- The vector store is the sequence of stored payloads in insertion order.
- The points the duplicate check reads are a separate parameter, `scanned`.

Corner cases of `chunk_text` (main.py:77-91) that the model makes explicit:

- An empty or all-whitespace text shorter than `max_len` yields the single
  chunk `"."` (`Chunker.ChunkBlankText`); a blank text at least `max_len`
  long yields `["", "."]` (`Chunker.ChunkLongBlankText`).
- The first chunk is empty when the first fragment alone reaches `max_len`
  (`Chunker.ChunkOversizedFirst`).
- A text ending in `.` is stored with a doubled dot: `"A. B. C."` becomes the
  chunk `"A. B. C.."`, because the empty fragment after the final `.` gets a
  `.` of its own (`Chunker.ChunkDoubledDot`, `AskEndpoint.UploadThenAsk`).

## Model

| member | source | states |
|---|---|---|
| Strings.Strip | main.py:87 | no contract beyond never lengthening its input; StripEnds, StripParts and StripUnique state what it returns |
| Strings.Join | main.py:171 | no contract of its own; JoinSplit and SplitJoin state it is the inverse of split |
| Strings.StripEnds | main.py:87 | a stripped string is empty exactly when the input is all whitespace; otherwise it neither starts nor ends with whitespace |
| Strings.StripParts | main.py:87 | the input is leading whitespace, then the stripped string, then trailing whitespace: strip removes whitespace from the ends only |
| Strings.StripUnique | main.py:87 | whitespace around a core whose ends are not whitespace strips to exactly that core |
| Strings.StripClean | main.py:90 | a string without whitespace at its ends is unchanged by strip |
| Strings.StripKeepsEnd | main.py:87 | a last character that is not whitespace survives stripping |
| Strings.StripKeeps | main.py:87 | stripping keeps every occurrence of a non-whitespace character, such as '.' |
| Strings.SplitOn | main.py:81 | split gives at least one piece, and no piece contains the separator |
| Strings.SplitCount | main.py:81 | split gives exactly one more piece than the text has separators |
| Strings.JoinSplit | main.py:81 | joining the pieces of a split with the separator gives back the text |
| Strings.SplitJoin | main.py:171 | splitting a join of separator-free parts gives back the parts |
| Strings.TerminateSplit | main.py:81-85 | appending each split piece followed by the separator rebuilds the text plus one extra separator |
| Strings.SplitTerminate | main.py:71-72 | splitting separator-free parts that were each followed by the separator gives the parts and one trailing empty piece |
| Decimal.NatToDecimal | main.py:157 | the rendering of a count is non-empty, all digits, and starts with '0' only for zero |
| Decimal.DecimalRoundTrip | main.py:157 | reading the digits back gives the count |
| Decimal.DecimalInjective | main.py:157 | distinct counts render differently |
| Extractor.PdfText | main.py:69-73 | no contract of its own; PdfTextJoin, PdfTextPages and PdfTextAppend state its properties |
| Extractor.ExtractText | main.py:61-75 | the result is an error exactly when the name ends in neither ".txt" nor ".pdf", and then it is the 400 "Only PDF or TXT supported" error; ".txt" gives the decoded bytes; ".pdf" gives every page's text followed by a newline |
| Extractor.SuffixesExclusive | main.py:66-68 | no name ends in both suffixes, so testing ".txt" first never hides a PDF |
| Extractor.SuffixCaseSensitive | main.py:66-75 | "notes.TXT", "report.PDF" and "table.csv" are all refused with the 400 error |
| Extractor.PdfTextAppend | main.py:71-72 | the PDF text of two runs of pages is the concatenation of their PDF texts |
| Extractor.PdfTextJoin | main.py:69-73 | no pages give the empty text; otherwise the PDF text is the pages joined by newlines plus a final newline |
| Extractor.PdfTextPages | main.py:69-73 | pages without newlines come back from splitting the PDF text on newlines, plus one trailing empty piece |
| Chunker.ChunkText | main.py:77-91 | no contract of its own; ChunkRoundTrip, ChunkShape, ChunkCount, ChunkLengthBound and ChunkGreedy state its properties, and ChunkTextLoop is proved to compute it |
| Chunker.ChunkTextLoop | main.py:77-91 | the loop returns the stripped buffers of the fold over the fragments |
| Chunker.ChunkCount | main.py:77-91 | there is at least one chunk, and at most two more chunks than '.' characters in the text |
| Chunker.ChunkRoundTrip | main.py:81-90 | the raw buffers concatenate to exactly the text followed by one '.', and each chunk is its buffer stripped |
| Chunker.ChunkShape | main.py:84-90 | a chunk is empty exactly when it comes first and the first fragment alone reaches max_len; every other chunk ends with '.' |
| Chunker.ChunkLengthBound | main.py:84-88 | a chunk with two or more '.' is within max_len; a non-empty chunk over max_len is a single fragment with its '.' |
| Chunker.ChunkGreedy | main.py:84-88 | a buffer is closed only when its length plus the next buffer's first fragment reaches max_len |
| Chunker.PackConcat | main.py:83-88 | the loop only appends: emitted buffers followed by the open one spell the start state followed by every fragment and its '.' |
| Chunker.PackFits | main.py:84-85 | while everything still to come fits under the limit, each fragment and its '.' are appended and nothing is emitted |
| Chunker.ChunkShortText | main.py:81-90 | a text shorter than max_len is one buffer, the text plus '.', and one chunk, that buffer stripped |
| Chunker.ChunkBlankText | main.py:81-90 | an empty or all-whitespace text shorter than max_len yields the single chunk "." |
| Chunker.ChunkLongBlankText | main.py:84-90 | an all-whitespace text at least max_len long yields an empty chunk and then "." |
| Chunker.ChunkDoubledDot | main.py:81-85 | a short text ending in '.' and not starting with whitespace comes back as one chunk ending in ".." |
| Chunker.ChunkOversizedFirst | main.py:84-88 | a dot-free fragment that alone reaches max_len yields an empty first chunk and then the fragment whole, with its '.' |
| UploadEndpoint.UploadFile | main.py:128-157 | no contract of its own; DedupIgnoresFilename, UnsupportedUploadStoresNothing and UploadShortText state its properties, through IngestText's contract |
| UploadEndpoint.Message | main.py:139-157 | no contract of its own; MessageInjective and MessageOfOne state its properties |
| UploadEndpoint.HasHash | main.py:137-138 | the duplicate test holds exactly when some scanned point's file_hash equals the document hash |
| UploadEndpoint.IngestText | main.py:133-157 | a skip happens exactly when a scanned point carries the text's hash, and then the store is unchanged; otherwise the store grows by one record per chunk, in chunk order, each carrying the chunk and the hash, after the untouched old records |
| UploadEndpoint.MessageInjective | main.py:139-157 | the reply message tells a skip from a store and gives the exact chunk count |
| UploadEndpoint.MessageOfOne | main.py:157 | one stored chunk is reported as "File processed and 1 chunks stored." |
| UploadEndpoint.ReuploadIsNoOp | main.py:136-139 | once the scan sees one of a document's records, uploading the same text again changes nothing |
| UploadEndpoint.UploadIdempotent | main.py:133-157 | with a scan covering the store, the second upload of the same text is a skip and leaves the store as one upload did |
| UploadEndpoint.MissedScanDuplicates | main.py:137-155 | a scan that misses the document's records stores every chunk a second time, with the same reply |
| UploadEndpoint.DedupIgnoresFilename | main.py:133-139 | when the second upload's scan reads the whole store, the check keys on the extracted text: the same text under another supported name is a skip |
| UploadEndpoint.UnsupportedUploadStoresNothing | main.py:74-75 | an unsupported file is refused with the 400 error and the store is unchanged |
| UploadEndpoint.UploadShortText | main.py:133-157 | a short text file uploaded into an empty store becomes one record, `Strip(text + ".")` (the text plus '.', with leading whitespace stripped; whitespace at the end of the text stays before the '.'), tagged with its hash |
| UploadEndpoint.PagedScanStoresTwice | main.py:137-139 | with ten other records stored, the single page the check reads can miss a stored document, and the same text is stored twice |
| UploadEndpoint.FullScanIdempotent | main.py:136-139 | with the check reading every stored point, a second upload of the same text is a skip and stores nothing |
| AskEndpoint.Ask | main.py:159-176 | no contract of its own; AskWithoutHits, AskWithHits, AskContextSplits and AskUsesTopThree state its properties |
| AskEndpoint.AskWithoutHits | main.py:167-168 | with no hits the answer is "No relevant context found." with an empty context, whatever the chat model would say |
| AskEndpoint.AskWithHits | main.py:170-176 | with any hits the context is the hit texts in rank order joined by newlines, a missing text read as empty, and the answer is the chat model's reply for the question and that context |
| AskEndpoint.AskContextSplits | main.py:171 | when no hit text holds a newline, splitting the context on newlines gives back the hit texts in rank order |
| AskEndpoint.AskUsesTopThree | main.py:165 | two searches that agree on their top three results give the same answer |
| AskEndpoint.AskSingleHit | main.py:171-176 | a single hit's text is the whole context |
| AskEndpoint.UploadThenAsk | main.py:128-176 | a short text file uploaded into an empty store is reported as one stored chunk, and a question whose search returns that record is answered from that chunk alone |

## Left out

- `compute_hash`: the MD5 digest is an arbitrary function of the text. No property assumes the hash is injective: a text whose hash equals a stored one is skipped, as main.py:138 skips it.
- Embedding (`embedder.encode`), vector contents, point ids (`uuid4`) and similarity ranking: these are outside the core's logic. `search` is a given function returning payloads, most similar first.
- `query_huggingface_chat`: the HTTP call, prompt text, model settings and error string come from an external service, and the chat model is a given function.
- UTF-8 decoding errors and `pdfplumber` failures, including a page whose `extract_text()` is `None`, which raises a `TypeError` in `extract_text`: these are foreign library behaviour. The readers are total functions.
- FastAPI routing, CORS, `.env` loading and client construction: framework and configuration, not logic.
- `app.py` and `test_model.py` are not part of this model.
- The `scroll` page: `scanned` is a parameter. `IsScrollPage` states what a page can be, and only the default page size of 10 points is modelled.
- Concurrency: `upload_file` reads with `scroll` and writes with `upsert` as two separate calls with no lock, and the service takes concurrent requests. Two simultaneous uploads of one text can both pass the duplicate check and both store. `IngestText` is one atomic step, so `UploadIdempotent`, `FullScanIdempotent` and the intended behaviour under "## Findings" hold for sequential uploads only.
- External failures: an exception from `embedder.encode`, `qdrant.scroll`, `qdrant.upsert` or `qdrant.search` ends the request with a server error and leaves the store unchanged. `UploadFile` and `Ask` are total and do not model these errors.
- Chunker.ChunkLengthBound, Chunker.ChunkShape: these are stated per chunk index rather than as one quantified statement over all chunks, because the quantified form is too expensive for the solver. The content is the same.
- Chunker.ChunkBlankText, Chunker.ChunkDoubledDot: these cover texts shorter than `max_len`. Longer texts are covered by the general lemmas above.

## Findings

| source | as written | input that shows it | evidently intended | confidence | as-written member | corrected member |
|---|---|---|---|---|---|---|
| main.py:137-139 | the duplicate check reads only the first page that `scroll` returns, 10 points by default | a store holding 10 records of other documents, then the same text uploaded twice, where the second scan's page is those 10 records | uploading identical text twice, one upload after the other, never stores its chunks twice | not executed; medium (rests on the store client's default page size and its id ordering) | UploadEndpoint.PagedScanStoresTwice | UploadEndpoint.FullScanIdempotent |

=== FILE: ask.dfy ===
/** `ask`: retrieve the nearest chunks for a question and answer from them.

    `search(question, limit)` stands for embedding the question and asking the
    vector store for its `limit` nearest points, most similar first; `chat`
    stands for the hosted chat model called with the question and the context.
    Both are outside the model and taken as given functions. */
module AskEndpoint {
  import opened Strings
  import opened Outcome
  import opened Chunker
  import opened Extractor
  import opened UploadEndpoint

  /** The number of nearest points `ask` requests. */
  const SearchLimit: nat := 3

  const NoContextAnswer := "No relevant context found."

  /** The response body: the answer and the context it was drawn from. */
  datatype Answer = Answer(answer: string, context: string)

  /** `hit.payload.get("text", "")`. */
  function HitText(hit: Payload): string {
    hit.text.GetOr("")
  }

  /** The hit texts in rank order. */
  function HitTexts(hits: seq<Payload>): (texts: seq<string>)
    ensures |texts| == |hits|
    ensures forall i :: 0 <= i < |hits| ==> texts[i] == HitText(hits[i])
  {
    seq(|hits|, i requires 0 <= i < |hits| => HitText(hits[i]))
  }

  /** `ask(question)`. */
  function Ask(question: string, search: (string, nat) -> seq<Payload>,
               chat: (string, string) -> string): Answer
  {
    var hits := search(question, SearchLimit);
    if hits == [] then Answer(NoContextAnswer, "")
    else
      var context := Join(HitTexts(hits), "\n");
      Answer(chat(question, context), context)
  }

  /** With no hits the fixed answer and an empty context come back, whatever
      the chat model would have said: the model is not consulted. */
  lemma AskWithoutHits(question: string, search: (string, nat) -> seq<Payload>,
                       chat: (string, string) -> string, otherChat: (string, string) -> string)
    requires search(question, SearchLimit) == []
    ensures Ask(question, search, chat) == Answer(NoContextAnswer, "")
    ensures Ask(question, search, chat) == Ask(question, search, otherChat)
  {
  }

  /** With hits, whatever their texts, the context is the hit texts in rank
      order joined by newlines (a missing text counting as empty), and the
      answer is the chat model's reply to the question and that context. */
  lemma AskWithHits(question: string, search: (string, nat) -> seq<Payload>,
                    chat: (string, string) -> string)
    requires search(question, SearchLimit) != []
    ensures var r := Ask(question, search, chat);
      && r.context == Join(HitTexts(search(question, SearchLimit)), "\n")
      && r.answer == chat(question, r.context)
  {
  }

  /** When no hit text holds a newline itself, splitting the context on
      newlines gives the hit texts back, one per hit, in rank order. */
  lemma AskContextSplits(question: string, search: (string, nat) -> seq<Payload>,
                         chat: (string, string) -> string)
    requires search(question, SearchLimit) != []
    requires forall i :: 0 <= i < |search(question, SearchLimit)| ==>
      '\n' !in HitText(search(question, SearchLimit)[i])
    ensures SplitOn(Ask(question, search, chat).context, '\n') == HitTexts(search(question, SearchLimit))
  {
    AskWithHits(question, search, chat);
    SplitJoin(HitTexts(search(question, SearchLimit)), '\n');
  }

  /** Only the three nearest points are consulted: two searches that agree on
      the top three give the same answer. */
  lemma AskUsesTopThree(question: string, search: (string, nat) -> seq<Payload>,
                        otherSearch: (string, nat) -> seq<Payload>,
                        chat: (string, string) -> string)
    requires search(question, 3) == otherSearch(question, 3)
    ensures Ask(question, search, chat) == Ask(question, otherSearch, chat)
  {
  }

  /** A single hit is the whole context, and the answer comes from it. */
  lemma AskSingleHit(question: string, search: (string, nat) -> seq<Payload>,
                     chat: (string, string) -> string, hit: Payload)
    requires search(question, SearchLimit) == [hit]
    ensures Ask(question, search, chat) == Answer(chat(question, HitText(hit)), HitText(hit))
  {
    assert HitTexts([hit]) == [HitText(hit)];
  }

  /** End to end: a text file shorter than the chunk limit, uploaded into an
      empty store, becomes one record holding `Strip(text + ".")`; a question
      whose search returns that record is answered from exactly that chunk. */
  lemma UploadThenAsk(file: UploadedFile, readers: Readers, hash: string -> string,
                      question: string, search: (string, nat) -> seq<Payload>,
                      chat: (string, string) -> string)
    requires EndsWith(file.filename, TextSuffix)
    requires |readers.decodeUtf8(file.content)| < DefaultMaxLen
    requires search(question, SearchLimit) == UploadFile([], [], file, readers, hash).store
    ensures var chunk := Strip(readers.decodeUtf8(file.content) + ".");
      && UploadFile([], [], file, readers, hash).result == Ok("File processed and 1 chunks stored.")
      && Ask(question, search, chat) == Answer(chat(question, chunk), chunk)
  {
    var text := readers.decodeUtf8(file.content);
    UploadShortText(file, readers, hash);
    AskSingleHit(question, search, chat, Payload(Some(Strip(text + ".")), Some(hash(text))));
  }
}

=== FILE: chunker.dfy ===
/** `chunk_text`: sentence-boundary chunking of a document.

    `chunk_text` splits the text on '.', then walks the fragments keeping a
    buffer `current`. A fragment is appended to the buffer, followed by a '.',
    while the buffer length plus the fragment length stays strictly below
    `max_len`; otherwise the stripped buffer is emitted as a chunk and the
    buffer restarts with the fragment and a '.'. A non-empty buffer left at the
    end is emitted too. The model keeps the raw buffers (before stripping),
    which is what makes the round trip statable. */
module Chunker {
  import opened Strings

  /** The `max_len` default `upload_file` relies on. */
  const DefaultMaxLen: int := 1500

  /** The loop state: raw buffers emitted so far and the buffer being filled. */
  datatype Packing = Packing(flushed: seq<string>, current: string)

  /** `text.split(".")`. */
  function Fragments(text: string): seq<string> {
    SplitOn(text, '.')
  }

  /** One iteration of the loop, on fragment `s`. */
  function Step(p: Packing, s: string, maxLen: int): Packing {
    if |p.current| + |s| < maxLen then Packing(p.flushed, p.current + s + ".")
    else Packing(p.flushed + [p.current], s + ".")
  }

  /** The loop over `frags`, starting from state `p`. */
  function Pack(p: Packing, frags: seq<string>, maxLen: int): Packing
    decreases |frags|
  {
    if frags == [] then p else Pack(Step(p, frags[0], maxLen), frags[1..], maxLen)
  }

  /** The raw buffers that `chunk_text` strips and returns, in order. */
  function Buffers(text: string, maxLen: int): seq<string> {
    var p := Pack(Packing([], ""), Fragments(text), maxLen);
    if p.current != "" then p.flushed + [p.current] else p.flushed
  }

  /** `chunk_text(text, max_len)`: each buffer stripped, in order. */
  function ChunkText(text: string, maxLen: int): seq<string> {
    var bufs := Buffers(text, maxLen);
    seq(|bufs|, i requires 0 <= i < |bufs| => Strip(bufs[i]))
  }

  /** `chunk_text` as the service writes it: a loop that appends stripped
      buffers to a list. It computes the fold above. */
  method ChunkTextLoop(text: string, maxLen: int) returns (chunks: seq<string>)
    ensures chunks == ChunkText(text, maxLen)
  {
    var sentences := Fragments(text);
    var current := "";
    ghost var raw: seq<string> := [];
    chunks := [];
    for k := 0 to |sentences|
      invariant Pack(Packing([], ""), sentences[..k], maxLen) == Packing(raw, current)
      invariant StrippedAll(raw, chunks)
    {
      PackSnoc(Packing([], ""), sentences[..k], sentences[k], maxLen);
      assert sentences[..k + 1] == sentences[..k] + [sentences[k]];
      var s := sentences[k];
      if |current| + |s| < maxLen {
        current := current + s + ".";
      } else {
        StrippedSnoc(raw, chunks, current);
        chunks := chunks + [Strip(current)];
        raw := raw + [current];
        current := s + ".";
      }
    }
    assert sentences[..|sentences|] == sentences;
    if current != "" {
      StrippedSnoc(raw, chunks, current);
      chunks := chunks + [Strip(current)];
      raw := raw + [current];
    }
    StrippedBuffers(text, maxLen, chunks);
  }

  /** `chunks` holds the stripped `raw` buffers, one for one. */
  predicate StrippedAll(raw: seq<string>, chunks: seq<string>) {
    |chunks| == |raw| && forall i :: 0 <= i < |raw| ==> chunks[i] == Strip(raw[i])
  }

  lemma StrippedSnoc(raw: seq<string>, chunks: seq<string>, b: string)
    requires StrippedAll(raw, chunks)
    ensures StrippedAll(raw + [b], chunks + [Strip(b)])
  {
  }

  lemma StrippedBuffers(text: string, maxLen: int, chunks: seq<string>)
    requires StrippedAll(Buffers(text, maxLen), chunks)
    ensures chunks == ChunkText(text, maxLen)
  {
  }

  /** Running the loop one fragment further is one more `Step`. */
  lemma {:induction false} PackSnoc(p: Packing, frags: seq<string>, s: string, maxLen: int)
    decreases |frags|
    ensures Pack(p, frags + [s], maxLen) == Step(Pack(p, frags, maxLen), s, maxLen)
  {
    if frags != [] {
      assert (frags + [s])[1..] == frags[1..] + [s];
      PackSnoc(Step(p, frags[0], maxLen), frags[1..], s, maxLen);
    }
  }

  // ---------------------------------------------------------------------------
  // Invariants of the loop

  /** A buffer holding at least one fragment: it ends with the '.' appended
      after its last fragment, and it is within the limit unless it holds a
      single fragment (exactly one '.'). */
  predicate Filled(b: string, maxLen: int) {
    && |b| > 0
    && b[|b| - 1] == '.'
    && (|b| <= maxLen || multiset(b)['.'] == 1)
  }

  predicate DotFree(frags: seq<string>) {
    forall i :: 0 <= i < |frags| ==> '.' !in frags[i]
  }

  /** The first fragment of a buffer: the text before its first '.'. */
  function Lead(b: string): string {
    SplitOn(b, '.')[0]
  }

  /** Every flush was forced: the buffer before it plus the leading fragment of
      the next buffer would have reached the limit. */
  predicate Forced(bufs: seq<string>, maxLen: int) {
    forall i :: 0 <= i < |bufs| - 1 ==> |bufs[i]| + |Lead(bufs[i + 1])| >= maxLen
  }

  lemma LeadOfSingle(s: string)
    requires '.' !in s
    ensures Lead(s + ".") == s
  {
    SplitCons(s, '.', []);
    assert s + ['.'] + [] == s + ".";
  }

  lemma StepFilled(p: Packing, s: string, maxLen: int)
    requires Filled(p.current, maxLen)
    requires '.' !in s
    ensures Filled(Step(p, s, maxLen).current, maxLen)
  {
    assert multiset(s + ".") == multiset(s) + multiset(".");
  }

  /** The loop only appends: buffers already emitted stay, at most one buffer
      is emitted per fragment, and every buffer emitted after the loop holds a
      fragment is `Filled`. */
  lemma {:induction false} PackExtends(p: Packing, frags: seq<string>, maxLen: int)
    decreases |frags|
    requires Filled(p.current, maxLen)
    requires DotFree(frags)
    ensures var q := Pack(p, frags, maxLen);
      && |p.flushed| <= |q.flushed| <= |p.flushed| + |frags|
      && q.flushed[..|p.flushed|] == p.flushed
      && (forall i :: |p.flushed| <= i < |q.flushed| ==> Filled(q.flushed[i], maxLen))
      && Filled(q.current, maxLen)
  {
    if frags != [] {
      var p' := Step(p, frags[0], maxLen);
      StepFilled(p, frags[0], maxLen);
      PackExtends(p', frags[1..], maxLen);
      var q := Pack(p, frags, maxLen);
      assert q.flushed[..|p'.flushed|] == p'.flushed;
      assert q.flushed[..|p.flushed|] == p'.flushed[..|p.flushed|];
    }
  }

  /** What the loop emits, followed by its final buffer, is what it started
      with followed by every fragment and a '.'. */
  lemma {:induction false} PackConcat(p: Packing, frags: seq<string>, maxLen: int)
    decreases |frags|
    ensures var q := Pack(p, frags, maxLen);
      Concat(q.flushed) + q.current == Concat(p.flushed) + p.current + Terminate(frags, ".")
  {
    if frags != [] {
      var p' := Step(p, frags[0], maxLen);
      PackConcat(p', frags[1..], maxLen);
      if |p.current| + |frags[0]| >= maxLen {
        ConcatSnoc(p.flushed, p.current);
      }
      assert Concat(p'.flushed) + p'.current == Concat(p.flushed) + p.current + frags[0] + ".";
    }
  }

  /** Every flush the loop makes from a filled buffer is forced. */
  lemma {:induction false} PackForced(p: Packing, frags: seq<string>, maxLen: int)
    decreases |frags|
    requires Filled(p.current, maxLen)
    requires DotFree(frags)
    requires Forced(p.flushed + [p.current], maxLen)
    ensures var q := Pack(p, frags, maxLen);
      Forced(q.flushed + [q.current], maxLen)
  {
    if frags != [] {
      var s := frags[0];
      var p' := Step(p, s, maxLen);
      StepFilled(p, s, maxLen);
      var before, after := p.flushed + [p.current], p'.flushed + [p'.current];
      if |p.current| + |s| < maxLen {
        assert '.' in p.current by {
          assert p.current[|p.current| - 1] == '.';
        }
        SplitFirstPiece(p.current, s + ".", '.');
        assert p.current + s + "." == p.current + (s + ".");
        assert Lead(p'.current) == Lead(p.current);
        forall i | 0 <= i < |after| - 1
          ensures |after[i]| + |Lead(after[i + 1])| >= maxLen
        {
          assert after[i] == before[i];
          assert Lead(after[i + 1]) == Lead(before[i + 1]);
        }
      } else {
        LeadOfSingle(s);
        assert after[..|before|] == before;
      }
      assert Forced(after, maxLen);
      PackForced(p', frags[1..], maxLen);
    }
  }

  // ---------------------------------------------------------------------------
  // The first iteration

  /** The state after the first fragment: a filled buffer, preceded by an
      empty emitted buffer exactly when the fragment alone reaches the limit. */
  lemma FirstStep(s: string, maxLen: int)
    requires '.' !in s
    ensures var p := Step(Packing([], ""), s, maxLen);
      && Filled(p.current, maxLen)
      && Forced(p.flushed + [p.current], maxLen)
      && p.flushed == (if |s| >= maxLen then [""] else [])
      && Concat(p.flushed) + p.current == s + "."
  {
    var p := Step(Packing([], ""), s, maxLen);
    assert multiset(s + ".") == multiset(s) + multiset(".");
    LeadOfSingle(s);
    assert Concat([""]) == Concat([]) + "";
  }

  /** The final state of the loop over the fragments of `text`. */
  lemma BuffersFacts(text: string, maxLen: int)
    ensures var f := Fragments(text);
      var q := Pack(Packing([], ""), f, maxLen);
      && Filled(q.current, maxLen)
      && Buffers(text, maxLen) == q.flushed + [q.current]
      && |q.flushed| <= |f|
      && (forall i :: 0 < i < |q.flushed| ==> Filled(q.flushed[i], maxLen))
      && (|f[0]| >= maxLen <==> |q.flushed| > 0 && q.flushed[0] == "")
      && (q.flushed != [] && q.flushed[0] != "" ==> Filled(q.flushed[0], maxLen))
      && Forced(q.flushed + [q.current], maxLen)
      && Concat(q.flushed) + q.current == text + "."
  {
    var f := Fragments(text);
    var p := Step(Packing([], ""), f[0], maxLen);
    var q := Pack(p, f[1..], maxLen);
    assert Pack(Packing([], ""), f, maxLen) == q;
    FirstStep(f[0], maxLen);
    assert DotFree(f[1..]);
    PackExtends(p, f[1..], maxLen);
    PackForced(p, f[1..], maxLen);
    PackConcat(p, f[1..], maxLen);
    TerminateSplit(text, '.');
    assert f == [f[0]] + f[1..];
    assert Concat(q.flushed) + q.current == f[0] + "." + Terminate(f[1..], ".");
    if p.flushed != [] {
      assert q.flushed[0] == p.flushed[0];
    }
  }

  /** Each raw buffer: the empty one can only come first, and only when the
      first fragment alone reaches the limit; every other buffer is filled. */
  lemma BufferAt(text: string, maxLen: int, i: int)
    requires 0 <= i < |Buffers(text, maxLen)|
    ensures var b := Buffers(text, maxLen)[i];
      && (b == "" <==> i == 0 && |Fragments(text)[0]| >= maxLen)
      && (b != "" ==> Filled(b, maxLen))
  {
    BuffersFacts(text, maxLen);
    var q := Pack(Packing([], ""), Fragments(text), maxLen);
    var bufs := Buffers(text, maxLen);
    if i == |q.flushed| {
      assert bufs[i] == q.current;
    } else {
      assert bufs[i] == q.flushed[i];
    }
  }

  // ---------------------------------------------------------------------------
  // Properties of chunk_text

  /** `chunk_text` never returns an empty list, and returns at most two more
      chunks than the text has '.' characters. */
  lemma ChunkCount(text: string, maxLen: int)
    ensures 1 <= |ChunkText(text, maxLen)| <= multiset(text)['.'] + 2
  {
    BuffersFacts(text, maxLen);
    SplitCount(text, '.');
  }

  /** A blank text is not chunk-free: the empty text, or one of whitespace
      only, still gets a '.' after its one fragment, so it yields the single
      chunk "." under any limit above its length (`ChunkLongBlankText` covers
      the rest). */
  lemma ChunkBlankText(text: string, maxLen: int)
    requires AllSpace(text) && |text| < maxLen
    ensures ChunkText(text, maxLen) == ["."]
  {
    ChunkShortText(text, maxLen);
    StripUnique(text, ".", "");
    assert text + "." + "" == text + ".";
  }

  /** Round trip: the raw buffers concatenate to exactly the text followed by
      one '.', and each chunk is its buffer without surrounding whitespace
      (which `Strip`, `StripParts` and `StripUnique` pin down). */
  lemma ChunkRoundTrip(text: string, maxLen: int)
    ensures Concat(Buffers(text, maxLen)) == text + "."
    ensures |ChunkText(text, maxLen)| == |Buffers(text, maxLen)|
    ensures forall i :: 0 <= i < |ChunkText(text, maxLen)| ==>
      ChunkText(text, maxLen)[i] == Strip(Buffers(text, maxLen)[i])
  {
    BuffersFacts(text, maxLen);
    var q := Pack(Packing([], ""), Fragments(text), maxLen);
    ConcatSnoc(q.flushed, q.current);
  }

  /** Shape: a chunk is empty exactly when it is the first one and the first
      fragment alone reaches the limit; every other chunk ends with '.'. */
  lemma ChunkShape(text: string, maxLen: int, i: int)
    requires 0 <= i < |ChunkText(text, maxLen)|
    ensures var c := ChunkText(text, maxLen)[i];
      && (c == "" <==> i == 0 && |Fragments(text)[0]| >= maxLen)
      && (c != "" ==> c[|c| - 1] == '.')
  {
    BufferAt(text, maxLen, i);
    var b := Buffers(text, maxLen)[i];
    assert ChunkText(text, maxLen)[i] == Strip(b);
    if b != "" {
      StripKeepsEnd(b);
    }
  }

  /** Length bound: a chunk holding two or more fragments (two or more '.')
      stays within `max_len`; a chunk over the limit is a single fragment
      followed by its '.', which `chunk_text` never subdivides. */
  lemma ChunkLengthBound(text: string, maxLen: int, i: int)
    requires 0 <= i < |ChunkText(text, maxLen)|
    ensures var c := ChunkText(text, maxLen)[i];
      && (multiset(c)['.'] >= 2 ==> |c| <= maxLen)
      && (c != "" && |c| > maxLen ==> multiset(c)['.'] == 1 && c[|c| - 1] == '.')
  {
    BufferAt(text, maxLen, i);
    var b := Buffers(text, maxLen)[i];
    assert ChunkText(text, maxLen)[i] == Strip(b);
    if b != "" {
      StripFilled(b, maxLen);
    }
  }

  /** Stripping a filled buffer keeps it filled. */
  lemma StripFilled(b: string, maxLen: int)
    requires Filled(b, maxLen)
    ensures Filled(Strip(b), maxLen)
  {
    StripKeepsEnd(b);
    StripKeeps(b, '.');
  }

  /** Greedy packing: a buffer is only closed when its length plus that of the
      next fragment reaches `max_len`, so no two neighbouring buffers could
      have been merged. */
  lemma ChunkGreedy(text: string, maxLen: int)
    ensures var bufs := Buffers(text, maxLen);
      forall i :: 0 <= i < |bufs| - 1 ==> |bufs[i]| + |Lead(bufs[i + 1])| >= maxLen
  {
    BuffersFacts(text, maxLen);
  }

  // ---------------------------------------------------------------------------
  // Corner cases

  /** While everything still to come fits, the loop only appends: each
      fragment and its '.' go onto the current buffer and nothing is emitted. */
  lemma {:induction false} PackFits(p: Packing, frags: seq<string>, maxLen: int)
    decreases |frags|
    requires |p.current| + |Terminate(frags, ".")| <= maxLen
    ensures Pack(p, frags, maxLen) == Packing(p.flushed, p.current + Terminate(frags, "."))
  {
    if frags != [] {
      var p' := Step(p, frags[0], maxLen);
      assert p'.current == p.current + frags[0] + ".";
      PackFits(p', frags[1..], maxLen);
      assert p'.current + Terminate(frags[1..], ".") == p.current + Terminate(frags, ".");
    }
  }

  /** A text shorter than `max_len` is one buffer: the text and a final '.'. */
  lemma ChunkShortText(text: string, maxLen: int)
    requires |text| < maxLen
    ensures Buffers(text, maxLen) == [text + "."]
    ensures ChunkText(text, maxLen) == [Strip(text + ".")]
  {
    var f := Fragments(text);
    TerminateSplit(text, '.');
    assert Terminate(f, ".") == text + ".";
    PackFits(Packing([], ""), f, maxLen);
    assert Pack(Packing([], ""), f, maxLen) == Packing([], text + ".");
  }

  /** A short text that ends in '.' comes back as one chunk ending in "..":
      the empty fragment after the last '.' is still followed by a '.'. */
  lemma ChunkDoubledDot(text: string, maxLen: int)
    requires |text| < maxLen
    requires text != "" && text[|text| - 1] == '.' && !IsSpace(text[0])
    ensures ChunkText(text, maxLen) == [text + "."]
    ensures EndsWith(text + ".", "..")
  {
    ChunkShortText(text, maxLen);
    StripClean(text + ".");
  }

  /** A first fragment that alone reaches the limit yields an empty first
      chunk, and the fragment is kept whole rather than subdivided. */
  lemma ChunkOversizedFirst(s: string, maxLen: int)
    requires '.' !in s && |s| >= maxLen
    requires s != "" ==> !IsSpace(s[0])
    ensures ChunkText(s, maxLen) == ["", s + "."]
  {
    BuffersOversized(s, maxLen);
    StripClean(s + ".");
    StripClean("");
  }

  /** A blank text at least `max_len` long is its own oversized first
      fragment: an empty chunk comes first, then the chunk ".". */
  lemma ChunkLongBlankText(text: string, maxLen: int)
    requires AllSpace(text) && |text| >= maxLen
    ensures ChunkText(text, maxLen) == ["", "."]
  {
    assert '.' !in text by {
      forall k | 0 <= k < |text|
        ensures text[k] != '.'
      {
        assert IsSpace(text[k]);
      }
    }
    BuffersOversized(text, maxLen);
    StripUnique(text, ".", "");
    assert text + "." + "" == text + ".";
    StripClean("");
  }

  lemma BuffersOversized(s: string, maxLen: int)
    requires '.' !in s && |s| >= maxLen
    ensures Buffers(s, maxLen) == ["", s + "."]
  {
    SplitNoSep(s, '.');
    assert Pack(Packing([], ""), [s], maxLen) == Packing([""], s + ".");
  }
}

=== FILE: decimal.dfy ===
/** Python's `str(n)` for a non-negative integer, as used by f-strings. */
module Decimal {

  function DigitChar(d: nat): (c: char)
    requires d < 10
    ensures '0' <= c <= '9'
  {
    (d + '0' as int) as char
  }

  predicate IsDigit(c: char) {
    '0' <= c <= '9'
  }

  function DigitValue(c: char): (d: nat)
    requires IsDigit(c)
    ensures d < 10
  {
    c as int - '0' as int
  }

  /** The decimal spelling of `n`: digits only, most significant first, and
      no leading zero unless `n` is zero. */
  function NatToDecimal(n: nat): (s: string)
    ensures |s| >= 1
    ensures forall i :: 0 <= i < |s| ==> IsDigit(s[i])
    ensures s[0] == '0' ==> n == 0
  {
    if n < 10 then [DigitChar(n)] else NatToDecimal(n / 10) + [DigitChar(n % 10)]
  }

  /** The value of a string of decimal digits. */
  function DecimalValue(s: string): nat
    requires forall i :: 0 <= i < |s| ==> IsDigit(s[i])
  {
    if s == [] then 0
    else DecimalValue(s[..|s| - 1]) * 10 + DigitValue(s[|s| - 1])
  }

  /** Reading back the decimal spelling of `n` gives `n`. */
  lemma {:induction false} DecimalRoundTrip(n: nat)
    ensures DecimalValue(NatToDecimal(n)) == n
  {
    var s := NatToDecimal(n);
    if n >= 10 {
      DecimalRoundTrip(n / 10);
      assert s[..|s| - 1] == NatToDecimal(n / 10);
    }
  }

  /** Distinct numbers are spelled differently. */
  lemma DecimalInjective(m: nat, n: nat)
    requires NatToDecimal(m) == NatToDecimal(n)
    ensures m == n
  {
    DecimalRoundTrip(m);
    DecimalRoundTrip(n);
  }
}

=== FILE: extractor.dfy ===
/** `extract_text`: the text of an uploaded file, chosen by its file name. */
module Extractor {
  import opened Strings
  import opened Outcome

  newtype byte = b: int | 0 <= b < 256

  /** An upload as the endpoint receives it. */
  datatype UploadedFile = UploadedFile(filename: string, content: seq<byte>)

  /** The foreign readers the extractor delegates to: UTF-8 decoding of the raw
      bytes, and the text of each page of a PDF, in page order. */
  datatype Readers = Readers(decodeUtf8: seq<byte> -> string, pdfPages: seq<byte> -> seq<string>)

  const TextSuffix := ".txt"
  const PdfSuffix := ".pdf"

  /** The error raised for any other file name. */
  const UnsupportedFormat := HttpError(400, "Only PDF or TXT supported")

  /** The PDF branch: every page's text followed by a newline, in page order. */
  function PdfText(pages: seq<string>): string {
    Terminate(pages, "\n")
  }

  /** `extract_text(file)`. */
  function ExtractText(file: UploadedFile, readers: Readers): (r: Result<string>)
    ensures r.Err? <==> !EndsWith(file.filename, TextSuffix) && !EndsWith(file.filename, PdfSuffix)
    ensures r.Err? ==> r.error == UnsupportedFormat
    ensures EndsWith(file.filename, TextSuffix) ==> r == Ok(readers.decodeUtf8(file.content))
    ensures EndsWith(file.filename, PdfSuffix) ==> r == Ok(PdfText(readers.pdfPages(file.content)))
  {
    SuffixesExclusive(file.filename);
    if EndsWith(file.filename, TextSuffix) then Ok(readers.decodeUtf8(file.content))
    else if EndsWith(file.filename, PdfSuffix) then Ok(PdfText(readers.pdfPages(file.content)))
    else Err(UnsupportedFormat)
  }

  /** No file name ends with both suffixes, so testing ".txt" first never
      hides a PDF. */
  lemma SuffixesExclusive(name: string)
    ensures !(EndsWith(name, TextSuffix) && EndsWith(name, PdfSuffix))
  {
    assert EndsWith(name, TextSuffix) ==> name[|name| - 3] == 't';
    assert EndsWith(name, PdfSuffix) ==> name[|name| - 3] == 'p';
  }

  /** The suffix test compares characters exactly: an upper-case suffix is rejected. */
  lemma SuffixCaseSensitive(readers: Readers, content: seq<byte>)
    ensures ExtractText(UploadedFile("notes.TXT", content), readers) == Err(UnsupportedFormat)
    ensures ExtractText(UploadedFile("report.PDF", content), readers) == Err(UnsupportedFormat)
    ensures ExtractText(UploadedFile("table.csv", content), readers) == Err(UnsupportedFormat)
  {
    assert !EndsWith("notes.TXT", TextSuffix) by { assert "notes.TXT"[8] == 'T'; }
    assert !EndsWith("notes.TXT", PdfSuffix) by { assert "notes.TXT"[8] == 'T'; }
    assert !EndsWith("report.PDF", TextSuffix) by { assert "report.PDF"[9] == 'F'; }
    assert !EndsWith("report.PDF", PdfSuffix) by { assert "report.PDF"[9] == 'F'; }
    assert !EndsWith("table.csv", TextSuffix) by { assert "table.csv"[8] == 'v'; }
    assert !EndsWith("table.csv", PdfSuffix) by { assert "table.csv"[8] == 'v'; }
  }

  /** The PDF text of a document is the texts of its parts, one after the other. */
  lemma PdfTextAppend(a: seq<string>, b: seq<string>)
    ensures PdfText(a + b) == PdfText(a) + PdfText(b)
  {
    TerminateAppend(a, b, "\n");
  }

  /** The PDF text joins the pages with newlines and ends with one more newline;
      a document without pages has the empty text. */
  lemma PdfTextJoin(pages: seq<string>)
    ensures pages == [] ==> PdfText(pages) == ""
    ensures pages != [] ==> PdfText(pages) == Join(pages, "\n") + "\n"
  {
    if pages != [] {
      TerminateIsJoin(pages, "\n");
    }
  }

  /** Pages without newlines are recovered, in order, by splitting the PDF text
      on newlines (the last piece is the empty text after the final newline). */
  lemma PdfTextPages(pages: seq<string>)
    requires forall i :: 0 <= i < |pages| ==> '\n' !in pages[i]
    ensures SplitOn(PdfText(pages), '\n') == pages + [""]
  {
    SplitTerminate(pages, '\n');
  }
}

=== FILE: outcome.dfy ===
/** The failure-carrying values the service passes around. */
module Outcome {

  /** A value that may be missing, as Python's `dict.get` without a default returns. */
  datatype Option<+T> = None | Some(value: T) {
    function GetOr(default: T): T {
      match this
      case Some(v) => v
      case None => default
    }
  }

  /** An `HTTPException`: the status code and the `detail` text the client sees. */
  datatype HttpError = HttpError(status: nat, detail: string)

  /** The outcome of a request handler: a value, or the HTTP error it raised. */
  datatype Result<+T> = Ok(value: T) | Err(error: HttpError)
}

=== FILE: strings.dfy ===
/** Python `str` primitives the service relies on, over `string` (a `seq<char>`).
    Dafny's `char` is a Unicode scalar value, so `|s|` is Python's `len(s)` and
    `multiset(s)[c]` is Python's `s.count(c)` for a one-character `c`. */
module Strings {

  /** Python's `str.isspace` on one character: exactly the characters that
      `str.strip()` without arguments removes. */
  predicate IsSpace(c: char) {
    || ('\t' <= c <= '\r')
    || ('\U{1C}' <= c <= '\U{1F}')
    || c == ' '
    || c == '\U{85}'
    || c == '\U{A0}'
    || c == '\U{1680}'
    || ('\U{2000}' <= c <= '\U{200A}')
    || c == '\U{2028}'
    || c == '\U{2029}'
    || c == '\U{202F}'
    || c == '\U{205F}'
    || c == '\U{3000}'
  }

  predicate AllSpace(s: string) {
    forall i :: 0 <= i < |s| ==> IsSpace(s[i])
  }

  /** Number of whitespace characters at the front of `s`. */
  function LeadingSpaces(s: string): (n: nat)
    ensures n <= |s|
    ensures AllSpace(s[..n])
    ensures n < |s| ==> !IsSpace(s[n])
  {
    if s != [] && IsSpace(s[0]) then 1 + LeadingSpaces(s[1..]) else 0
  }

  /** Number of whitespace characters at the back of `s`. */
  function TrailingSpaces(s: string): (n: nat)
    ensures n <= |s|
    ensures AllSpace(s[|s| - n..])
    ensures n < |s| ==> !IsSpace(s[|s| - n - 1])
  {
    if s != [] && IsSpace(s[|s| - 1]) then 1 + TrailingSpaces(s[..|s| - 1]) else 0
  }

  /** Python's `s.strip()`: `s` without its leading and trailing whitespace.
      `StripEnds`, `StripParts` and `StripUnique` show it is the unique middle
      part of `s` that neither starts nor ends with whitespace and is
      surrounded only by whitespace. */
  function Strip(s: string): (r: string)
    ensures |r| <= |s|
  {
    DropTrailing(DropLeading(s))
  }

  /** `s` without its leading whitespace (Python's `s.lstrip()`). */
  function DropLeading(s: string): (r: string)
    ensures |r| <= |s|
  {
    s[LeadingSpaces(s)..]
  }

  /** `t` without its trailing whitespace (Python's `t.rstrip()`). */
  function DropTrailing(t: string): (r: string)
    ensures |r| <= |t|
  {
    t[..|t| - TrailingSpaces(t)]
  }

  /** The stripped text is empty exactly when the text is all whitespace, and
      otherwise neither starts nor ends with whitespace. */
  lemma StripEnds(s: string)
    ensures Strip(s) == [] <==> AllSpace(s)
    ensures Strip(s) != [] ==> !IsSpace(Strip(s)[0]) && !IsSpace(Strip(s)[|Strip(s)| - 1])
  {
    var lo := LeadingSpaces(s);
    var t := DropLeading(s);
    var n := TrailingSpaces(t);
    if lo < |s| {
      assert t[0] == s[lo];
      assert !AllSpace(s);
    } else {
      assert s == s[..lo];
    }
  }

  /** `s` is its stripped middle with only whitespace before and after it. */
  lemma StripParts(s: string)
    ensures LeadingSpaces(s) + |Strip(s)| <= |s|
    ensures s == s[..LeadingSpaces(s)] + Strip(s) + s[LeadingSpaces(s) + |Strip(s)|..]
    ensures AllSpace(s[..LeadingSpaces(s)])
    ensures AllSpace(s[LeadingSpaces(s) + |Strip(s)|..])
  {
    var lo := LeadingSpaces(s);
    var t := DropLeading(s);
    var n := TrailingSpaces(t);
    var r := t[..|t| - n];
    assert Strip(s) == r;
    assert t == s[lo..];
    assert s[lo + |r|..] == t[|t| - n..];
    assert s == s[..lo] + r + t[|t| - n..];
  }

  /** Leading whitespace count of whitespace followed by a non-whitespace start. */
  lemma {:induction false} LeadingSpacesOf(a: string, m: string)
    requires AllSpace(a)
    requires m != [] && !IsSpace(m[0])
    ensures LeadingSpaces(a + m) == |a|
  {
    if a == [] {
      assert a + m == m;
    } else {
      assert (a + m)[1..] == a[1..] + m;
      LeadingSpacesOf(a[1..], m);
    }
  }

  /** Trailing whitespace count of a non-whitespace end followed by whitespace. */
  lemma {:induction false} TrailingSpacesOf(m: string, b: string)
    requires AllSpace(b)
    requires m != [] && !IsSpace(m[|m| - 1])
    ensures TrailingSpaces(m + b) == |b|
  {
    if b == [] {
      assert m + b == m;
    } else {
      assert (m + b)[..|m + b| - 1] == m + b[..|b| - 1];
      TrailingSpacesOf(m, b[..|b| - 1]);
    }
  }

  /** Whitespace on either side is all `Strip` removes: wrapping a string that
      neither starts nor ends with whitespace in whitespace, then stripping,
      gives it back. */
  lemma StripUnique(a: string, m: string, b: string)
    requires AllSpace(a) && AllSpace(b)
    requires m != [] ==> !IsSpace(m[0]) && !IsSpace(m[|m| - 1])
    ensures Strip(a + m + b) == m
  {
    var s := a + m + b;
    if m == [] {
      assert s == a + b;
      assert AllSpace(s);
      StripEnds(s);
    } else {
      assert s == a + (m + b);
      LeadingSpacesOf(a, m + b);
      assert s[|a|..] == m + b;
      TrailingSpacesOf(m, b);
      assert (m + b)[..|m|] == m;
    }
  }

  /** A string that neither starts nor ends with whitespace is its own strip. */
  lemma StripClean(m: string)
    requires m != [] ==> !IsSpace(m[0]) && !IsSpace(m[|m| - 1])
    ensures Strip(m) == m
  {
    StripUnique([], m, []);
    assert [] + m + [] == m;
  }

  /** A string ending in a non-whitespace character keeps that end under `Strip`. */
  lemma StripKeepsEnd(s: string)
    requires s != [] && !IsSpace(s[|s| - 1])
    ensures Strip(s) != [] && Strip(s)[|Strip(s)| - 1] == s[|s| - 1]
  {
    var lo := LeadingSpaces(s);
    var t := DropLeading(s);
    assert lo < |s| by {
      assert s[..|s|][|s| - 1] == s[|s| - 1];
    }
    assert t[|t| - 1] == s[|s| - 1];
    assert TrailingSpaces(t) == 0;
  }

  /** `Strip` only removes whitespace, so it keeps every other character, with
      its multiplicity. */
  lemma StripKeeps(s: string, c: char)
    requires !IsSpace(c)
    ensures multiset(Strip(s))[c] == multiset(s)[c]
  {
    StripParts(s);
    var lo := LeadingSpaces(s);
    var r := Strip(s);
    var pre, post := s[..lo], s[lo + |r|..];
    forall k | 0 <= k < |pre| ensures pre[k] != c { }
    forall k | 0 <= k < |post| ensures post[k] != c { }
    assert multiset(s) == multiset(pre) + multiset(r) + multiset(post);
  }

  /** Python's `s.split(sep)` for a one-character separator: the
      separator-free pieces between occurrences of `sep` (`SplitCount`: one
      more piece than there are separators). */
  function SplitOn(s: string, sep: char): (parts: seq<string>)
    ensures |parts| >= 1
    ensures forall i :: 0 <= i < |parts| ==> sep !in parts[i]
  {
    if s == [] then [[]]
    else
      var rest := SplitOn(s[1..], sep);
      if s[0] == sep then [[]] + rest
      else [[s[0]] + rest[0]] + rest[1..]
  }

  /** A split has one more piece than the string has separators. */
  lemma {:induction false} SplitCount(s: string, sep: char)
    ensures |SplitOn(s, sep)| == multiset(s)[sep] + 1
  {
    if s != [] {
      SplitCount(s[1..], sep);
      assert s == [s[0]] + s[1..];
    }
  }

  /** Python's `sep.join(parts)`. */
  function Join(parts: seq<string>, sep: string): string {
    if |parts| == 0 then []
    else if |parts| == 1 then parts[0]
    else parts[0] + sep + Join(parts[1..], sep)
  }

  /** Every part followed by the terminator `t`, in order: the string the
      service builds by repeated `+= part + t`. */
  function Terminate(parts: seq<string>, t: string): string {
    if parts == [] then [] else parts[0] + t + Terminate(parts[1..], t)
  }

  /** All strings of `ss` one after the other. */
  function Concat(ss: seq<string>): string {
    if ss == [] then [] else Concat(ss[..|ss| - 1]) + ss[|ss| - 1]
  }

  /** Python's `s.endswith(suffix)`, which compares characters exactly. */
  predicate EndsWith(s: string, suffix: string) {
    |suffix| <= |s| && s[|s| - |suffix|..] == suffix
  }

  lemma ConcatSnoc(ss: seq<string>, s: string)
    ensures Concat(ss + [s]) == Concat(ss) + s
  {
    assert (ss + [s])[..|ss|] == ss;
  }

  lemma {:induction false} SplitNoSep(p: string, sep: char)
    requires sep !in p
    ensures SplitOn(p, sep) == [p]
  {
    if p != [] {
      SplitNoSep(p[1..], sep);
      assert [p[0]] + p[1..] == p;
    }
  }

  /** A separator-free prefix followed by the separator is split off as one piece. */
  lemma {:induction false} SplitCons(p: string, sep: char, t: string)
    requires sep !in p
    ensures SplitOn(p + [sep] + t, sep) == [p] + SplitOn(t, sep)
  {
    var s := p + [sep] + t;
    if p == [] {
      assert s[1..] == t;
    } else {
      assert s[1..] == p[1..] + [sep] + t;
      SplitCons(p[1..], sep, t);
      assert [p[0]] + p[1..] == p;
    }
  }

  /** Joining the pieces of a split with the separator gives the string back. */
  lemma {:induction false} JoinSplit(s: string, sep: char)
    ensures Join(SplitOn(s, sep), [sep]) == s
  {
    if s != [] {
      var rest := SplitOn(s[1..], sep);
      JoinSplit(s[1..], sep);
      if s[0] == sep {
        assert ([[]] + rest)[1..] == rest;
        assert [s[0]] + s[1..] == s;
      } else {
        var parts := [[s[0]] + rest[0]] + rest[1..];
        if |rest| == 1 {
          assert [s[0]] + s[1..] == s;
        } else {
          assert parts[1..] == rest[1..];
          assert Join(rest, [sep]) == rest[0] + [sep] + Join(rest[1..], [sep]);
          assert [s[0]] + s[1..] == s;
        }
      }
    }
  }

  /** Splitting a join of separator-free parts gives the parts back: `Join` and
      `SplitOn` are inverse to each other. */
  lemma {:induction false} SplitJoin(parts: seq<string>, sep: char)
    requires |parts| >= 1
    requires forall i :: 0 <= i < |parts| ==> sep !in parts[i]
    ensures SplitOn(Join(parts, [sep]), sep) == parts
  {
    if |parts| == 1 {
      SplitNoSep(parts[0], sep);
    } else {
      SplitJoin(parts[1..], sep);
      SplitCons(parts[0], sep, Join(parts[1..], [sep]));
      assert [parts[0]] + parts[1..] == parts;
    }
  }

  /** A non-empty terminated list is the join followed by one more terminator. */
  lemma {:induction false} TerminateIsJoin(parts: seq<string>, t: string)
    requires |parts| >= 1
    ensures Terminate(parts, t) == Join(parts, t) + t
  {
    if |parts| > 1 {
      TerminateIsJoin(parts[1..], t);
    }
  }

  /** Terminating lists distributes over concatenation of the lists. */
  lemma {:induction false} TerminateAppend(a: seq<string>, b: seq<string>, t: string)
    ensures Terminate(a + b, t) == Terminate(a, t) + Terminate(b, t)
  {
    if a == [] {
      assert a + b == b;
    } else {
      assert (a + b)[1..] == a[1..] + b;
      TerminateAppend(a[1..], b, t);
    }
  }

  /** Splitting a terminated list of separator-free parts gives the parts back,
      followed by the empty piece after the last terminator. */
  lemma {:induction false} SplitTerminate(parts: seq<string>, sep: char)
    requires forall i :: 0 <= i < |parts| ==> sep !in parts[i]
    ensures SplitOn(Terminate(parts, [sep]), sep) == parts + [[]]
  {
    if parts != [] {
      SplitTerminate(parts[1..], sep);
      SplitCons(parts[0], sep, Terminate(parts[1..], [sep]));
      assert [parts[0]] + (parts[1..] + [[]]) == parts + [[]];
    }
  }

  /** Terminating every piece of a split with the separator gives the string
      followed by one separator. */
  lemma TerminateSplit(s: string, sep: char)
    ensures Terminate(SplitOn(s, sep), [sep]) == s + [sep]
  {
    TerminateIsJoin(SplitOn(s, sep), [sep]);
    JoinSplit(s, sep);
  }

  /** The first piece of a split only depends on the text up to the first separator. */
  lemma {:induction false} SplitFirstPiece(a: string, b: string, sep: char)
    requires sep in a
    ensures SplitOn(a + b, sep)[0] == SplitOn(a, sep)[0]
  {
    assert (a + b)[1..] == a[1..] + b;
    if a[0] != sep {
      SplitFirstPiece(a[1..], b, sep);
    }
  }
}

=== FILE: upload.dfy ===
/** `upload_file`: extract, hash, skip a document already stored, otherwise
    chunk it and append one record per chunk.

    The vector store is a sequence of point payloads in insertion order. Point
    ids and embedding vectors play no part in the decision and are not kept.
    The records the duplicate check scans are a parameter: `upload_file` reads
    one page of the collection, which need not be all of it. */
module UploadEndpoint {
  import opened Strings
  import opened Decimal
  import opened Outcome
  import opened Chunker
  import opened Extractor

  /** The payload of a stored point. Either key may be absent from a point
      written by someone else, so each is read as `payload.get(key)` reads it. */
  datatype Payload = Payload(text: Option<string>, fileHash: Option<string>)

  /** What the endpoint reports after extraction succeeded. */
  datatype Reply = AlreadyProcessed | Stored(count: nat)

  /** The store after the request, and the response. */
  datatype Response = Response(store: seq<Payload>, result: Result<string>)

  /** The decision part, with the store after it. */
  datatype Ingest = Ingest(store: seq<Payload>, reply: Reply)

  /** The `message` text of the response. */
  function Message(reply: Reply): string {
    match reply
    case AlreadyProcessed => "File already processed"
    case Stored(n) => "File processed and " + NatToDecimal(n) + " chunks stored."
  }

  /** The duplicate test: does any scanned point carry the document hash? */
  function HasHash(points: seq<Payload>, h: string): (found: bool)
    ensures found <==> exists i :: 0 <= i < |points| && points[i].fileHash == Some(h)
  {
    if points == [] then false
    else points[0].fileHash == Some(h) || HasHash(points[1..], h)
  }

  /** One record per chunk, in chunk order, each carrying the document hash. */
  function NewRecords(chunks: seq<string>, h: string): (records: seq<Payload>)
    ensures |records| == |chunks|
    ensures forall i :: 0 <= i < |chunks| ==> records[i] == Payload(Some(chunks[i]), Some(h))
  {
    seq(|chunks|, i requires 0 <= i < |chunks| => Payload(Some(chunks[i]), Some(h)))
  }

  /** Everything `upload_file` does once the text is extracted. `hash` stands
      for `compute_hash`, a deterministic function of the text. */
  function IngestText(store: seq<Payload>, scanned: seq<Payload>, text: string,
                      hash: string -> string): (r: Ingest)
    ensures r.reply.AlreadyProcessed? <==>
      exists i :: 0 <= i < |scanned| && scanned[i].fileHash == Some(hash(text))
    ensures r.reply.AlreadyProcessed? ==> r.store == store
    ensures r.reply.Stored? ==>
      var chunks := ChunkText(text, DefaultMaxLen);
      && r.reply.count == |chunks| >= 1
      && |r.store| == |store| + r.reply.count
      && r.store[..|store|] == store
      && forall i :: 0 <= i < |chunks| ==>
           r.store[|store| + i] == Payload(Some(chunks[i]), Some(hash(text)))
  {
    var h := hash(text);
    if HasHash(scanned, h) then Ingest(store, AlreadyProcessed)
    else
      var chunks := ChunkText(text, DefaultMaxLen);
      ChunkCount(text, DefaultMaxLen);
      var store' := store + NewRecords(chunks, h);
      assert store'[..|store|] == store;
      Ingest(store', Stored(|chunks|))
  }

  /** `upload_file(file)`. */
  function UploadFile(store: seq<Payload>, scanned: seq<Payload>, file: UploadedFile,
                      readers: Readers, hash: string -> string): Response
  {
    match ExtractText(file, readers)
    case Err(e) => Response(store, Err(e))
    case Ok(text) =>
      var ingest := IngestText(store, scanned, text, hash);
      Response(ingest.store, Ok(Message(ingest.reply)))
  }

  // ---------------------------------------------------------------------------
  // Properties

  /** The message tells the replies apart: a caller can read the skip notice or
      the exact number of stored chunks back from it. */
  lemma MessageInjective(a: Reply, b: Reply)
    requires Message(a) == Message(b)
    ensures a == b
  {
    var prefix, suffix := "File processed and ", " chunks stored.";
    if a.Stored? && b.Stored? {
      var m := Message(a);
      assert m[|prefix|..|m| - |suffix|] == NatToDecimal(a.count);
      assert m[|prefix|..|m| - |suffix|] == NatToDecimal(b.count);
      DecimalInjective(a.count, b.count);
    }
  }

  /** Once a document's records are stored, uploading the same text again
      changes nothing, provided the scan sees one of those records. */
  lemma ReuploadIsNoOp(store: seq<Payload>, scanned: seq<Payload>, text: string,
                       hash: string -> string, scanned2: seq<Payload>, j: int)
    requires IngestText(store, scanned, text, hash).reply.Stored?
    requires |store| <= j < |IngestText(store, scanned, text, hash).store|
    requires IngestText(store, scanned, text, hash).store[j] in scanned2
    ensures var after := IngestText(store, scanned, text, hash).store;
      IngestText(after, scanned2, text, hash) == Ingest(after, AlreadyProcessed)
  {
    var after := IngestText(store, scanned, text, hash).store;
    var k :| 0 <= k < |scanned2| && scanned2[k] == after[j];
    assert after[|store| + (j - |store|)].fileHash == Some(hash(text));
    assert scanned2[k].fileHash == Some(hash(text));
  }

  /** With scans that see the whole store, uploading the same text twice
      leaves the store as one upload does and reports the second as a skip. */
  lemma UploadIdempotent(store: seq<Payload>, scanned: seq<Payload>, text: string,
                         hash: string -> string)
    requires forall p :: p in scanned ==> p in store
    ensures var first := IngestText(store, scanned, text, hash);
      IngestText(first.store, first.store, text, hash) == Ingest(first.store, AlreadyProcessed)
  {
    var first := IngestText(store, scanned, text, hash);
    if first.reply.Stored? {
      ReuploadIsNoOp(store, scanned, text, hash, first.store, |store|);
    } else {
      var i :| 0 <= i < |scanned| && scanned[i].fileHash == Some(hash(text));
      assert scanned[i] in scanned;
      var k :| 0 <= k < |store| && store[k] == scanned[i];
      assert first.store[k].fileHash == Some(hash(text));
    }
  }

  /** A scan that misses the document's records lets the same text be stored a
      second time: the store then holds every chunk twice. */
  lemma MissedScanDuplicates(store: seq<Payload>, scanned: seq<Payload>, text: string,
                             hash: string -> string, scanned2: seq<Payload>)
    requires IngestText(store, scanned, text, hash).reply.Stored?
    requires forall p :: p in scanned2 ==> p.fileHash != Some(hash(text))
    ensures var after := IngestText(store, scanned, text, hash).store;
      var again := IngestText(after, scanned2, text, hash);
      && again.reply == IngestText(store, scanned, text, hash).reply
      && again.store == after + after[|store|..]
  {
    var first := IngestText(store, scanned, text, hash);
    var again := IngestText(first.store, scanned2, text, hash);
    var n := first.reply.count;
    assert again.store[|first.store|..] == first.store[|store|..];
    assert again.store == again.store[..|first.store|] + again.store[|first.store|..];
  }

  /** When the second upload's scan reads the whole store, the duplicate
      check keys on the extracted text only: a second upload with the same
      text under any other supported name is a skip, and the store does not
      change. */
  lemma DedupIgnoresFilename(store: seq<Payload>, scanned: seq<Payload>,
                             file1: UploadedFile, file2: UploadedFile, readers: Readers,
                             hash: string -> string)
    requires forall p :: p in scanned ==> p in store
    requires ExtractText(file1, readers).Ok?
    requires ExtractText(file2, readers) == ExtractText(file1, readers)
    ensures var first := UploadFile(store, scanned, file1, readers, hash);
      UploadFile(first.store, first.store, file2, readers, hash)
        == Response(first.store, Ok("File already processed"))
  {
    UploadIdempotent(store, scanned, ExtractText(file1, readers).value, hash);
  }

  /** An unsupported file is refused with the 400 error and stores nothing. */
  lemma UnsupportedUploadStoresNothing(store: seq<Payload>, scanned: seq<Payload>,
                                      file: UploadedFile, readers: Readers,
                                      hash: string -> string)
    requires !EndsWith(file.filename, TextSuffix) && !EndsWith(file.filename, PdfSuffix)
    ensures UploadFile(store, scanned, file, readers, hash) == Response(store, Err(UnsupportedFormat))
  {
  }

  /** The reply for a single stored chunk. */
  lemma MessageOfOne()
    ensures Message(Stored(1)) == "File processed and 1 chunks stored."
  {
    assert NatToDecimal(1) == "1";
  }

  /** A text file shorter than the chunk limit, uploaded into an empty store,
      is stored as one record, `Strip(text + ".")`: the text plus '.', with
      leading whitespace stripped (whitespace at the end of the text stays
      before the '.'), tagged with the text's hash. */
  lemma UploadShortText(file: UploadedFile, readers: Readers, hash: string -> string)
    requires EndsWith(file.filename, TextSuffix)
    requires |readers.decodeUtf8(file.content)| < DefaultMaxLen
    ensures var text := readers.decodeUtf8(file.content);
      UploadFile([], [], file, readers, hash)
        == Response([Payload(Some(Strip(text + ".")), Some(hash(text)))],
                    Ok("File processed and 1 chunks stored."))
  {
    var text := readers.decodeUtf8(file.content);
    ChunkShortText(text, DefaultMaxLen);
    MessageOfOne();
    var ingest := IngestText([], [], text, hash);
    assert ingest.reply == Stored(1);
    assert ingest.store == [Payload(Some(Strip(text + ".")), Some(hash(text)))];
  }

  // ---------------------------------------------------------------------------
  // The duplicate check reads one page

  /** The number of points `scroll` returns when no limit is passed: the
      store client's default page size. */
  const ScrollPageSize: nat := 10

  /** A page `scroll` can return: as many stored points as the page holds.
      Which points they are depends on the point ids, which are random, so any
      stored points will do. */
  predicate IsScrollPage(page: seq<Payload>, store: seq<Payload>) {
    && |page| == (if |store| < ScrollPageSize then |store| else ScrollPageSize)
    && forall p :: p in page ==> p in store
  }

  /** As written, the duplicate check misses a stored document once the store
      outgrows one page: after a first upload into a store of ten other
      records, those ten can be the page the second upload scans, and the same
      text is stored again. */
  lemma PagedScanStoresTwice(others: seq<Payload>, text: string, hash: string -> string)
    requires |others| == ScrollPageSize
    requires forall p :: p in others ==> p.fileHash != Some(hash(text))
    ensures var first := IngestText(others, others, text, hash);
      var again := IngestText(first.store, others, text, hash);
      && IsScrollPage(others, first.store)
      && first.reply.Stored? && again.reply == first.reply
      && again.store == first.store + first.store[|others|..]
  {
    var first := IngestText(others, others, text, hash);
    assert !first.reply.AlreadyProcessed? by {
      forall i | 0 <= i < |others|
        ensures others[i].fileHash != Some(hash(text))
      {
        assert others[i] in others;
      }
    }
    MissedScanDuplicates(others, others, text, hash, others);
    forall p | p in others
      ensures p in first.store
    {
      var k :| 0 <= k < |others| && others[k] == p;
      assert first.store[k] == p;
    }
  }

  /** `upload_file` with the duplicate check reading every stored point. */
  function UploadFullScan(store: seq<Payload>, file: UploadedFile, readers: Readers,
                          hash: string -> string): Response {
    UploadFile(store, store, file, readers, hash)
  }

  /** With the full scan, a second upload of the same text, under any
      supported name, is always a skip and stores nothing. */
  lemma FullScanIdempotent(store: seq<Payload>, file1: UploadedFile,
                               file2: UploadedFile, readers: Readers, hash: string -> string)
    requires ExtractText(file1, readers).Ok?
    requires ExtractText(file2, readers) == ExtractText(file1, readers)
    ensures var first := UploadFullScan(store, file1, readers, hash);
      UploadFullScan(first.store, file2, readers, hash) == Response(first.store, Ok("File already processed"))
  {
    DedupIgnoresFilename(store, store, file1, file2, readers, hash);
  }
}
